=== FILE: README.md ===
# hackertea, modelled in Dafny

hackertea is a terminal Hacker News reader. This project models its core:

- **Item service** (`internal/hn`). It turns an item type into a remote suffix (`getSuffix`). It fetches and decodes ID lists (`GetItems`) and single items (`GetItem`), and single items go through an in-memory cache (`internal/cache`).
- **Item record** (`internal/item`). Its list text is `Title` and its filter text is `FilterValue`.
- **Constants and helpers.** The constants of `internal/constants` and `ItemType.Title` come from there. `Min`, `Max`, the platform dispatch of `Open` and `FetchStories` come from `internal/utils`. `FetchStories` is the worker-pool batch fetch that returns one page of a tab in request order.
- **Terminal controller** (`internal/tui/model`). This covers its construction (`New`), the two fetch commands (`next`, `initCmd`) and the `Update` transitions, all on an abstract state.

Modules follow the packages:

| module | file | models |
|---|---|---|
| `Wrappers` | `wrappers.dfy` | `Option` |
| `Constants` | `constants.dfy` | `internal/constants/constants.go` |
| `Format` | `format.dfy` | `strconv.Itoa`; `fmt.Sprintf` on `%s` templates |
| `Items` | `item.dfy` | `internal/item/item.go` |
| `Cache` | `cache.dfy` | `internal/cache/cache.go` |
| `Hn` | `hn.dfy` | `internal/hn/hn.go` |
| `Utils` | `utils.dfy` | `internal/utils/utils.go` |
| `TuiState` | `state.dfy` | the `model` struct, messages, commands |
| `Commands` | `commands.dfy` | `internal/tui/model/commands.go` |
| `TuiModel` | `model.dfy` | `internal/tui/model/model.go` |

How the outside world enters the model:

- **HTTP client.** `client: string -> Response` is a parameter. It answers one suffix with a body or an error.
- **JSON decoder.** `json.Unmarshal` becomes the parameters `decodeIds` and `decodeItem`.
- **Process start.** `exec.Command(...).Start()` becomes `start: Command -> Option<string>`.
- **Platform name.** `runtime.GOOS` becomes `os: string`.
- **Widgets.** The paginator's `NextPage` and the list widget's `SetSize`, `SetItems` and `Update` are functions in `TuiState.Env`. So are the theme's frame sizes. `TuiState.SetItems` pins only that the list holds exactly the items it was given. The page and page size it leaves are the widget's business, because `SetItems` re-runs the list's pagination.
- **Observable calls.** Every service call returns the suffixes it asked the client for, so the number of remote calls is visible. `GetItem` also returns the cache writes it made and the cache after the call.

`FetchStories` is modelled at two levels:

- **Reference.** `Utils.FetchStories` is an order-free function: slot `k` holds the outcome of looking up the `k`-th ID of the range.
- **Pipeline.** The channel pipeline is a method. The dispatcher tags each request with its position, and workers serve requests into responses. The collector method `Utils.Collect` writes each response at `number - start`, and the responses may arrive in any order, given as a permutation.
- **Agreement.** `Utils.FetchConcurrently` proves the pipeline equals the reference for every arrival order. `Utils.FetchThroughCache` proves the same when every lookup goes through the one shared cache, in arrival order.

Preconditions model where the Go code panics or blocks:

- `Utils.Panics`: a negative tab index, or a range that passes the bounds check but has `start < 0` or `start > end`. Either one makes Go index or slice out of range.
- `Utils.Deadlocks`: a non-empty range for which `Min(workers, end-start)` starts no worker. The dispatcher then blocks on its first send forever.

All other inputs are handled, and out-of-range requests return an empty page, as the source does.

`internal/utils/utils.go:46` names `constants.Darwing`, which `internal/constants/constants.go` does not declare. The model takes the evidently meant `Darwin` (`"darwin"`).

## Model

| member | source | states |
|---|---|---|
| Constants.Upper | internal/constants/constants.go:12-14 | A lower-case ASCII letter maps to its capital (code point minus 32). Every other character is kept. |
| Constants.Title | internal/constants/constants.go:12-14 | Title-casing keeps the length and upper-cases each character in place. |
| Constants.TitleIdempotent | internal/constants/constants.go:12-14 | Title-casing twice equals title-casing once. |
| Constants.TitleHasNoLowerCase | internal/constants/constants.go:12-14 | A title holds no lower-case ASCII letter. |
| Constants.TitleOfItemTypes | internal/constants/constants_test.go:7-24 | The titles of top, best, new and item are TOP, BEST, NEW and ITEM, as the enumeration's test expects. |
| Constants.ItemTypesDistinct | internal/constants/constants.go:33-45 | The five item-type values are pairwise distinct. |
| Format.Itoa | internal/hn/hn.go:59 | Decimal text is non-empty and starts with `-` exactly when the number is negative. The digits after the sign have no leading zero (a lone `0` aside) and read back as the number's absolute value. |
| Format.ItoaInjective | internal/hn/hn.go:59 | Two integers with the same decimal text are equal. |
| Format.SprintfOneVerb | internal/hn/hn.go:59 | In a template with exactly one `%s`, the argument replaces the verb and the text around it is kept. |
| Items.Titled | internal/utils/utils.go:103 | The built item has the given title, and every other field is at its zero value. |
| Items.PlainTitle | internal/item/item.go:36-39 | Without a URL the text is the title alone. With one it is `title (url)`. |
| Items.Title | internal/item/item.go:35-46 | There are four cases: URL present or not, visited or not. A visited item's text is the rendering of the plain text. |
| Items.VisitedTitleRendersUnvisited | internal/item/item.go:41-45 | The visited line is exactly the rendering of the line the same item shows unvisited. |
| Items.TitleDependsOnlyOnShownFields | internal/item/item.go:35-46 | Items that agree on title, URL and visited flag show the same line. |
| Items.FilterValueIgnoresUrlAndVisited | internal/item/item.go:64 | Changing the URL or the visited flag does not change the filter text. |
| Items.FilterValuePrefixesLine | internal/item/item.go:35-46 | The filter text (`item.go:64`) is a prefix of the plain line, and it is the whole line exactly when the item has no URL. |
| Cache.New | internal/cache/cache.go:23-25 | A new cache finds nothing. |
| Cache.Get | internal/cache/cache.go:29-39 | A key is found exactly when it is stored, and the stored item comes back. |
| Cache.Set | internal/cache/cache.go:42-47 | After a write the key yields the written item. Every other key answers as before, and the key set gains only the written key. |
| Cache.SetOverwrites | internal/cache/cache.go:42-47 | Of two writes to one key, the second wins. |
| Cache.FoundStaysFound | internal/cache/cache.go:11-14 | The interface has no removal, so a key once found stays found after any sequence of writes. |
| Hn.GetSuffix | internal/hn/hn.go:76-89 | new, top, best and item map to their suffixes. Every other value, `"ask"` included, gives `ErrInvalidItemType`. |
| Hn.SuffixRejectsEmptyAndAsk | internal/hn/hn.go:76-89 | The empty type and the Ask type are both rejected. |
| Hn.GetSuffixIntended | internal/hn/hn.go:76-89 | The corrected lookup maps `"ask"` to the Ask suffix and agrees with `getSuffix` on everything else. |
| Hn.IntendedSuffixTotalOnItems | internal/constants/constants.go:33-45 | With the Ask case, every enumeration value resolves, and distinct values resolve to distinct suffixes. |
| Hn.FetchList | internal/hn/hn.go:38-48 | An unresolved suffix makes no request. Otherwise exactly one request is made: a client error is returned unchanged, a decode error is returned unchanged, and a decoded list is returned as is. |
| Hn.GetItems | internal/hn/hn.go:32-49 | An invalid type fails with `ErrInvalidItemType` and makes no request. A valid type makes one request for its suffix. A client error comes back unchanged, a malformed body gives the decoder's error, and a decoded body gives exactly the decoded IDs. |
| Hn.GetItemsIntended | internal/hn/hn.go:32-49 | With the Ask case, the call agrees with `GetItems` on every other type. For `"ask"` it requests the Ask suffix once: a client error comes back unchanged, a malformed body gives the decoder's error, and a decoded body gives exactly the decoded IDs. |
| Hn.GetItemsPropagatesClientError | internal/hn/hn.go:38-41 | A client failure reaches the caller with its own message and no IDs. |
| Hn.ItemSuffix | internal/hn/hn.go:57-59 | The item suffix is `item/<decimal id>.json`. |
| Hn.SingleSuffixHasOneVerb | internal/constants/constants.go:22 | The single-item template has exactly one substitution point. |
| Hn.ItemSuffixInjective | internal/hn/hn.go:57-59 | Two IDs are requested under the same suffix exactly when they are equal. |
| Hn.GetItem | internal/hn/hn.go:51-74 | A cache hit returns the cached item with no request and no write. A miss makes one request for the item suffix. A client or decode error is returned unchanged, with no write. A body that decodes is returned as `Ok` with the decoded item, which is stored under its ID with that one write. |
| Hn.GetItemAgreesWithFresh | internal/hn/hn.go:51-74 | From a consistent cache, whose entries are what a fresh fetch decodes, `GetItem` answers what an uncached fetch answers and leaves the cache consistent. |
| Hn.SecondGetItemHits | internal/hn/hn.go:52-55 | After a successful lookup, the same ID is answered from the cache: the same item, no request, no write. |
| Hn.NewIsConsistent | internal/cache/cache.go:23-25 | A new, empty cache is consistent, so the agreement lemmas apply from the start of a run. |
| Hn.GetItemsInTurn | internal/hn/hn.go:51-74 | Looking up a sequence of IDs through one cache gives one result per ID. Entries already cached are never replaced. Every successful result is in the final cache under its ID. |
| Hn.InTurnAgreesWithFresh | internal/hn/hn.go:51-74 | In any order, every lookup through a shared consistent cache answers what a fresh fetch of its own ID answers, and the cache stays consistent. |
| Utils.Max | internal/utils/utils.go:17-22 | The result is at least both arguments and is one of them. |
| Utils.Min | internal/utils/utils.go:25-30 | The result is at most both arguments and is one of them. |
| Utils.Launcher | internal/utils/utils.go:41-50 | A launcher exists exactly for linux, windows and darwin, and it passes the URL as its last argument. |
| Utils.Open | internal/utils/utils.go:34-53 | An empty URL does nothing and succeeds. An unknown platform launches nothing and fails with "unsupported platform". Each known platform launches its own command, and the result is that command's start error. |
| Utils.Outcome | internal/utils/utils.go:100-107 | A found item is reported as is. A failure becomes a zero item titled `Could not get item (<error text>)`. |
| Utils.PlaceholderTitle | internal/utils/utils.go:103 | Formatting the error text into `Could not get item (%s)` gives `Could not get item (<error text>)`. |
| Utils.EffectiveWorkers | internal/utils/utils.go:80 | The pool size is the configured count, or the number of IDs when that is smaller. It is never zero when there is work and a worker. |
| Utils.DeadlockMeansNoWorkers | internal/utils/utils.go:80-122 | A non-empty accepted range blocks exactly when the configured worker count is not positive. |
| Utils.Dispatch | internal/utils/utils.go:113-116 | There is one request per ID of the range, in order, tagged with its absolute position `start + n`. |
| Utils.ServeAll | internal/utils/utils.go:95-111 | Every request gets its own response. |
| Utils.FetchStories | internal/utils/utils.go:66-131 | An out-of-range request returns an empty page and asks for nothing. Otherwise the page has `end - start` slots, and slot `k` holds the outcome for the `k`-th ID of the range. The IDs the dispatched requests ask for are exactly the range, each once and in order. |
| Utils.FetchStoriesIgnoresWorkers | internal/utils/utils.go:80-111 | The page is the same for any two worker counts that do not block. The pool size only changes the order in which responses arrive, and `Utils.FetchConcurrently` shows every arrival order gives this page. |
| Utils.FailureIsLocal | internal/utils/utils.go:100-105 | A failed lookup shows its error text in its own slot. Every other slot still holds its fetched item. |
| Utils.Collect | internal/utils/utils.go:124-128 | With distinct in-range positions, every response lands in the slot for its position. A slot is filled only if some response carried its position. |
| Utils.ArrivalTagsDistinct | internal/utils/utils.go:113-116 | Reordering the tagged responses keeps their positions in range and pairwise distinct. |
| Utils.CollectedInOrder | internal/utils/utils.go:124-128 | After collecting a permuted arrival, slot `k` holds the `k`-th response. |
| Utils.CollectPermuted | internal/utils/utils.go:124-130 | Whatever the arrival order, the collector's page lists the responses in request order. |
| Utils.MatchesFetchStories | internal/utils/utils.go:113-130 | The responses to the dispatched range, in request order, are the reference page. |
| Utils.FetchConcurrently | internal/utils/utils.go:66-131 | The pipeline returns the reference page for every arrival order of the responses. |
| Utils.CachedArrivalIsFresh | internal/utils/utils.go:100 | Serving the requests in arrival order through one consistent cache gives the same responses as fresh lookups. |
| Utils.FetchThroughCache | internal/utils/utils.go:66-131 | Fetching through one shared consistent cache, in any order, returns the page of fresh lookups. It leaves the cache consistent and keeps every entry it already held. |
| Commands.PageRange | internal/tui/model/commands.go:32 | Page `p` starts at `perPage * p` and spans `perPage` IDs. |
| Commands.PagesAdjacent | internal/tui/model/commands.go:32 | Each page ends where the next one starts. |
| Commands.PagesDisjoint | internal/tui/model/commands.go:32 | With a positive page size, distinct pages share no index. |
| Commands.RunNext | internal/tui/model/commands.go:29-36 | `next` fetches exactly page `page` of the tab. A page inside the IDs gives `perPage` items, one per ID. A page outside them gives none. |
| Commands.PartialLastPageIsEmpty | internal/utils/utils.go:76-78 | A page that only partly overlaps the end of the IDs comes back empty, not shortened. |
| Commands.Loaded | internal/tui/model/commands.go:14-22 | After init, a tab is sized from the window less the frames and then given its first page through `SetItems`. The page size used is the one the sized list reports. Its items are exactly that page. |
| Commands.RunInit | internal/tui/model/commands.go:9-27 | Init sizes and loads every tab and clears every visited set. Nothing else in the controller changes. |
| TuiModel.NewModel | internal/tui/model/model.go:38-102 | Lists load in the order Top, Best, New, Ask, and the first error is returned. When all four load, the controller is built, with the IDs stored in tab order Top, New, Best, Ask. The labels are Top/New/Best/Ask, the first tab is active, no page is visited, and the window size starts at zero. |
| TuiModel.TabLabelsMatchItems | internal/tui/model/model.go:85-89 | Each tab label title-cases to the same text as the item type whose IDs the tab holds. |
| TuiModel.NewModelNeverSucceeds | internal/tui/model/model.go:74-78 | With `getSuffix` as written, building the controller always fails, whatever the client answers. |
| TuiModel.NewModelIntendedSucceeds | internal/tui/model/model.go:56-101 | With the Ask suffix resolved, the controller is built whenever the four lists load. |
| TuiModel.WithActive | internal/tui/model/model.go:161 | Replacing the active list changes that tab only. |
| TuiModel.OnNext | internal/tui/model/model.go:111-116 | An arriving page stops loading and the active tab's items become the old items with the page appended (`SetItems`). The page the list then shows is marked visited, the paginator advances, and other tabs are untouched. |
| TuiModel.OnEnter | internal/tui/model/model.go:125-131 | With a selected item, a failed open returns at once with no command. A successful open marks exactly that item visited, and every other tab and field is left as it was. With no selection nothing happens. |
| TuiModel.OnKey | internal/tui/model/model.go:117-141 | A filtering list gets every key. `q` and `ctrl+c` quit, and `enter` opens the selection. `n` requests the next page only when the current page is unvisited. `t` and `T` move the active tab, clamped to the tab range. Any other key falls through unchanged. |
| TuiModel.Handle | internal/tui/model/model.go:110-159 | A page message goes to `OnNext`, and a key goes to `OnKey`. The init message only stops loading, and any other message falls through unchanged. Every branch that falls through keeps the controller well formed. |
| TuiModel.Update | internal/tui/model/model.go:108-164 | A branch that returns sends back its own state and command. Otherwise the message goes on to the active tab's list, after the switch. |
| TuiModel.Run | internal/tui/model/model.go:108-164 | Any sequence of messages keeps the controller well formed. |
| TuiModel.ActiveTabInRange | internal/tui/model/model.go:137-140 | Whatever messages arrive, the active tab stays one of the four, as a consequence of `Run` keeping the controller well formed. |
| TuiModel.UpdateKeepsTab | internal/tui/model/model.go:108-164 | A message that is not `t`, `tab`, `T` or `shift+tab` leaves the active tab where it was. |
| TuiModel.ActiveTabMovesOnlyOnTabKeys | internal/tui/model/model.go:108-164 | Across any sequence of messages with no tab key, the active tab does not change. |
| TuiModel.TabKeysClamp | internal/tui/model/model.go:137-140 | `t` moves one tab right and stops at the last tab. `T` moves one tab left and stops at the first. |
| TuiModel.FilteringBypassesKeys | internal/tui/model/model.go:119-121 | While filtering, a key reaches only the list widget. |
| TuiModel.NextKeyRequestsOnce | internal/tui/model/model.go:132-136 | `n` issues a fetch exactly when the current page is unvisited. The fetch is for the following page of the active tab, and loading starts. |
| TuiModel.NextMessageKeepsPrefix | internal/tui/model/model.go:111-116 | An arriving page leaves the items already shown in place and adds the new items after them. It marks visited the page the list shows after `SetItems`. |
| TuiModel.NextLandsOnActiveTab | internal/tui/model/model.go:111-116 | As written, a page requested on one tab lands on the tab that is active when it arrives. The requesting tab is left unchanged. |
| TuiModel.OnNextFor | internal/tui/model/model.go:111-116 | Corrected: a page is appended to the tab that requested it (`SetItems`), that tab's page is marked visited, and its paginator advances. Loading stops, and the other tabs and fields are untouched. |
| TuiModel.NextForLandsOnRequester | internal/tui/model/commands.go:29-36 | Corrected: with the page routed by the tab `next` was called with, switching tabs before it arrives no longer misplaces it. |
| TuiModel.ResizeStartsInit | internal/tui/model/model.go:152-158 | A resize records the size, shows the spinner and starts the initial load. |
| TuiModel.SpinnerOnlyWhileLoading | internal/tui/model/model.go:145-151 | A spinner tick changes nothing, and it asks for another tick only while loading. |

## Left out

- Concurrency. The goroutines, channels, `sync.WaitGroup` and the cache mutex are modelled by what a run can observe: the arrival order of responses is an arbitrary permutation, and each cache call is one atomic step. Interleavings inside a call are not modelled.
- The HTTP client (`internal/client`), `context` cancellation and `json.Unmarshal` are function parameters. Their own behaviour is not part of this model.
- `exec.Command(...).Start()` is a parameter that reports a start error or none. The process itself is not modelled.
- `Item.Time`, `Item.Description` and `constants.CurrentTime` need the clock. The visited style's look, the theme, styles, key bindings and `View` are presentation; `Title` takes the visited rendering as a function.
- Paginator and list-widget internals (`NextPage`, `SetSize`, `SetItems`, `Update`, filter state, selection) are the abstract functions and fields of `TuiState.Env` and `TuiState.ListState`. `SetItems` is pinned only on the items it leaves, so clamping the page after a reload is the widget's business.
- The remote is modelled as unchanging for the whole run. The client is a fixed function from suffix to response, so an ID always gets the same answer: no transient failures and no edits to an item between requests. Hn.GetItemAgreesWithFresh, Hn.InTurnAgreesWithFresh and Utils.FetchThroughCache rely on this.
- Integers are unbounded. Go's `int` IDs, positions and page bounds (`perPage*page+perPage`) are 64-bit and could wrap, which realistic sizes never reach.
- `config.LoadConfig`, `theme.NewTheme`, spinner construction and `main.go` are left out. Their errors in `New` are not modelled. `workers` stands for the configured worker count (`config.Workers`), and `perPage` for the page size the list widget gives a list created with no size (`model.go:234`).
- Constants.Title: models `strings.ToTitle` on ASCII letters only. Every other character is kept, so Unicode case mapping is not modelled.
- Format.SprintfOneVerb: `fmt.Sprintf` is modelled only for `%s` templates with at most one argument. Those are the only shapes the core formats through it (`item.go:36`, `hn.go:59`, `utils.go:103`), except `item.go:38`, whose two-argument result is stated directly in `Items.PlainTitle`.
- TuiModel.NewModel: the visited sets start empty. In the source they are nil maps (`model.go:88`), and a `next` message processed before `initCmd` has replaced them would panic on the write at `model.go:115`. Startup ordering is not modelled.
- Commands.RunInit: `initCmd` runs asynchronously and mutates the shared list widgets and visited maps from its goroutine. It is modelled as one atomic step applied when it runs.
- TuiModel.OnEnter: in the source, `Visited = true` is written through the item pointer, which the cache also holds. A later cached lookup of that ID therefore returns the visited item too. The model marks only the list's copy.
- Commands.PartialLastPageIsEmpty records that `next` never fetches a shortened last page. This is kept as written.

## Findings

| source | as written | input that shows it | evidently intended | confidence | as-written member | corrected member |
|---|---|---|---|---|---|---|
| internal/hn/hn.go:76-89 | `getSuffix` has no case for `"ask"`, yet `New` requests the Ask list (`model.go:74`) and aborts on its error | any client: `GetItems(ctx, "ask")` returns `ErrInvalidItemType`, so `New` always fails | `"ask"` maps to `askstories.json` | not executed | Hn.GetSuffix, TuiModel.NewModelNeverSucceeds | Hn.GetSuffixIntended, TuiModel.NewModelIntendedSucceeds |
| internal/tui/model/model.go:111-116 | a fetched page is appended to whichever tab is active when it arrives | press `n` on tab 0, then `t` before the page arrives: the page lands on tab 1, and tab 0 keeps its page unvisited | the page goes to the tab `next` was called for (`commands.go:29`) | not executed | TuiModel.NextLandsOnActiveTab | TuiModel.OnNextFor, TuiModel.NextForLandsOnRequester |

The item service and controller keep the code as written, so `Hn.GetSuffix` and `TuiModel.OnNext` carry both findings. The corrected members sit beside them and carry the intended properties.

=== FILE: cache.dfy ===
/**
 * `MemCache` of internal/cache/cache.go: an unbounded map from item ID to
 * item with lookup and insert-or-overwrite. The mutex only serialises
 * calls; each call here is one atomic step.
 */
module Cache {

  import opened Wrappers
  import opened Items

  datatype MemCache = MemCache(items: map<int, Item>)

  /** `cache.New`: nothing stored. */
  function New(): (c: MemCache)
    ensures forall k :: Get(c, k) == None
  {
    MemCache(map[])
  }

  /** `Get`: the stored item, or `None` for the Go pair `(nil, false)`. */
  function Get(c: MemCache, key: int): (r: Option<Item>)
    ensures r.Some? <==> key in c.items
    ensures r.Some? ==> r.value == c.items[key]
  {
    if key in c.items then Some(c.items[key]) else None
  }

  /** `Set`: insert, or overwrite what was stored (last writer wins). */
  function Set(c: MemCache, key: int, value: Item): (c': MemCache)
    ensures Get(c', key) == Some(value)
    ensures forall k :: k != key ==> Get(c', k) == Get(c, k)
    ensures c'.items.Keys == c.items.Keys + {key}
  {
    MemCache(c.items[key := value])
  }

  /** Two writes to one key leave the second. */
  lemma SetOverwrites(c: MemCache, key: int, v1: Item, v2: Item)
    ensures Set(Set(c, key, v1), key, v2) == Set(c, key, v2)
  {
  }

  /** Applies a sequence of writes in order. */
  function SetAll(c: MemCache, writes: seq<(int, Item)>): MemCache
    decreases |writes|
  {
    if |writes| == 0 then c else SetAll(Set(c, writes[0].0, writes[0].1), writes[1..])
  }

  /** No operation removes an entry: once found, a key stays found whatever is written after. */
  lemma {:induction false} FoundStaysFound(c: MemCache, writes: seq<(int, Item)>, key: int)
    requires Get(c, key).Some?
    ensures Get(SetAll(c, writes), key).Some?
    decreases |writes|
  {
    if |writes| > 0 {
      FoundStaysFound(Set(c, writes[0].0, writes[0].1), writes[1..], key);
    }
  }
}

=== FILE: commands.dfy ===
/**
 * The two fetch commands of internal/tui/model/commands.go: `next`, which
 * fetches one page of a tab, and `initCmd`, which sizes every list and loads
 * its first page.
 */
module Commands {

  import opened Items
  import opened Hn
  import opened Utils
  import opened TuiState

  /** The index range `[perPage*page, perPage*page + perPage)` of a page. */
  function PageRange(perPage: int, page: int): (r: (int, int))
    ensures r.1 - r.0 == perPage
    ensures r.0 == perPage * page
  {
    (perPage * page, perPage * page + perPage)
  }

  /** Each page ends exactly where the next one starts. */
  lemma PagesAdjacent(perPage: int, page: int)
    ensures PageRange(perPage, page).1 == PageRange(perPage, page + 1).0
  {
  }

  /** Pages of a positive size tile the IDs: distinct pages share no index. */
  lemma PagesDisjoint(perPage: int, p: int, q: int, i: int)
    requires perPage > 0 && p < q
    requires PageRange(perPage, p).0 <= i < PageRange(perPage, p).1
    ensures !(PageRange(perPage, q).0 <= i < PageRange(perPage, q).1)
  {
    var d := q - p - 1;
    assert perPage * p + perPage == perPage * (p + 1);
    assert perPage * q == perPage * (p + 1) + perPage * d;
    assert perPage * d >= 0;
  }

  /** The inputs `next` passes on to the fetch are ones it can run on. */
  predicate NextRunnable(m: Model, tab: int, perPage: int, page: int)
  {
    var (s, e) := PageRange(perPage, page);
    !Panics(m.ids, tab, s, e) && !Deadlocks(m.ids, m.workers, tab, s, e)
  }

  /**
   * `next`: the items of page `page` of `tab`, fetched with the configured
   * worker count; empty when the page is not wholly inside the tab's IDs.
   */
  function RunNext(getItem: int -> Result<Item>, m: Model, tab: int, perPage: int, page: int)
    : (items: seq<Item>)
    requires NextRunnable(m, tab, perPage, page)
    ensures items == FetchStories(getItem, m.ids, m.workers, tab, perPage * page, perPage * page + perPage).items
    ensures InRange(m.ids, tab, perPage * page, perPage * page + perPage) ==>
              |items| == perPage
              && forall k :: 0 <= k < perPage ==> items[k] == Outcome(getItem(m.ids[tab][perPage * page + k]))
    ensures !InRange(m.ids, tab, perPage * page, perPage * page + perPage) ==> items == []
  {
    var (s, e) := PageRange(perPage, page);
    FetchStories(getItem, m.ids, m.workers, tab, s, e).items
  }

  /** A page that reaches past the end of the IDs, even partly, comes back empty. */
  lemma PartialLastPageIsEmpty(getItem: int -> Result<Item>, m: Model, tab: int, perPage: int, page: int)
    requires NextRunnable(m, tab, perPage, page)
    requires 0 <= tab < |m.ids| && perPage * page < |m.ids[tab]| < perPage * page + perPage
    ensures RunNext(getItem, m, tab, perPage, page) == []
  {
  }

  /** The list of tab `i` after `SetSize` with the controller's size less the frames. */
  function Sized(env: Env, m: Model, i: int): ListState
    requires 0 <= i < |m.content|
  {
    env.setSize(m.content[i], m.width - env.frameWidth, m.height - env.frameHeight)
  }

  /** Every tab's first page is something the fetch can run on. */
  predicate InitRunnable(env: Env, m: Model)
  {
    && Valid(m)
    && forall i :: 0 <= i < |m.tabs| ==>
         !Panics(m.ids, i, 0, Sized(env, m, i).perPage)
         && !Deadlocks(m.ids, m.workers, i, 0, Sized(env, m, i).perPage)
  }

  /**
   * Tab `i` after `initCmd`: sized, then given exactly its first page, where
   * the page size is the one the sized list reports.
   */
  function Loaded(env: Env, getItem: int -> Result<Item>, m: Model, i: int): (l: ListState)
    requires InitRunnable(env, m) && 0 <= i < |m.tabs|
    ensures l == SetItems(env, Sized(env, m, i), l.items)
    ensures InRange(m.ids, i, 0, Sized(env, m, i).perPage) ==>
              |l.items| == Sized(env, m, i).perPage
              && forall k :: 0 <= k < |l.items| ==> l.items[k] == Outcome(getItem(m.ids[i][k]))
    ensures !InRange(m.ids, i, 0, Sized(env, m, i).perPage) ==> l.items == []
  {
    var sized := Sized(env, m, i);
    SetItems(env, sized, FetchStories(getItem, m.ids, m.workers, i, 0, sized.perPage).items)
  }

  /**
   * `initCmd`, applied when it runs: every tab is sized, loses its visited
   * pages and is loaded with its first page; nothing else changes.
   */
  function RunInit(env: Env, getItem: int -> Result<Item>, m: Model): (r: Model)
    requires InitRunnable(env, m)
    ensures Valid(r)
    ensures r.(content := m.content, visited := m.visited) == m
    ensures forall j :: 0 <= j < TabCount ==> r.visited[j] == {}
    ensures forall j :: 0 <= j < TabCount ==> r.content[j] == Loaded(env, getItem, m, j)
  {
    m.(content := seq(TabCount, j requires 0 <= j < TabCount => Loaded(env, getItem, m, j)),
       visited := seq(TabCount, _ => {}))
  }
}

=== FILE: constants.dfy ===
/**
 * The item-type enumeration, the remote suffixes and the platform names of
 * internal/constants/constants.go, and `ItemType.Title`.
 */
module Constants {

  /** A Go `ItemType` is a string; values outside the enumeration are representable. */
  type ItemType = string

  const BaseUrl: string := "https://hacker-news.firebaseio.com/v0"
  const NewSuffix: string := "newstories.json"
  const TopSuffix: string := "topstories.json"
  const BestSuffix: string := "beststories.json"
  const AskSuffix: string := "askstories.json"
  /** The single-item template; its one `%s` receives the decimal item ID. */
  const SingleSuffix: string := "item/%s.json"

  const TabTop: string := "Top"
  const TabNew: string := "New"
  const TabBest: string := "Best"
  const TabAsk: string := "Ask"

  const Linux: string := "linux"
  const Windows: string := "windows"
  const Darwin: string := "darwin"

  /** The fields of the `Items` struct literal. */
  const NewItems: ItemType := "new"
  const TopItems: ItemType := "top"
  const BestItems: ItemType := "best"
  const AskItems: ItemType := "ask"
  const SingleItem: ItemType := "item"

  /** The five enumeration values, in declaration order. */
  const AllItems: seq<ItemType> := [NewItems, TopItems, BestItems, AskItems, SingleItem]

  predicate IsLower(c: char) { 'a' <= c <= 'z' }

  /** Upper-cases one ASCII letter and leaves every other character alone. */
  function Upper(c: char): (u: char)
    ensures IsLower(c) ==> 'A' <= u <= 'Z' && u as int == c as int - 32
    ensures !IsLower(c) ==> u == c
  {
    if IsLower(c) then (c as int - 32) as char else c
  }

  /**
   * `ItemType.Title`, i.e. `strings.ToTitle`, restricted to what it does on
   * ASCII text: every lower-case letter becomes its capital, position by position.
   */
  function Title(t: ItemType): (r: string)
    ensures |r| == |t|
    ensures forall i :: 0 <= i < |t| ==> r[i] == Upper(t[i])
  {
    if |t| == 0 then "" else [Upper(t[0])] + Title(t[1..])
  }

  /** The title of a title is the title: upper-casing is idempotent. */
  lemma {:induction false} TitleIdempotent(t: ItemType)
    ensures Title(Title(t)) == Title(t)
  {
    if |t| > 0 {
      TitleIdempotent(t[1..]);
      assert Title(t)[1..] == Title(t[1..]);
    }
  }

  /** The result of `Title` holds no lower-case ASCII letter. */
  lemma TitleHasNoLowerCase(t: ItemType)
    ensures forall i :: 0 <= i < |Title(t)| ==> !IsLower(Title(t)[i])
  {
  }

  /** The four titles the enumeration's tests pin down. */
  lemma TitleOfItemTypes()
    ensures Title(TopItems) == "TOP"
    ensures Title(BestItems) == "BEST"
    ensures Title(NewItems) == "NEW"
    ensures Title(SingleItem) == "ITEM"
  {
  }

  /** The five enumeration values are pairwise distinct. */
  lemma ItemTypesDistinct()
    ensures forall i, j :: 0 <= i < j < |AllItems| ==> AllItems[i] != AllItems[j]
  {
  }
}

=== FILE: format.dfy ===
/**
 * The two formatting primitives the item service relies on: `strconv.Itoa`
 * and a one-argument `fmt.Sprintf` whose template uses only `%s` verbs.
 */
module Format {

  import opened Wrappers

  function DigitChar(d: nat): (c: char)
    requires d < 10
    ensures '0' <= c <= '9'
  {
    "0123456789"[d]
  }

  /** The value of a digit character (meaningful for `'0'..'9'` only). */
  function DigitValue(c: char): (d: int)
    ensures '0' <= c <= '9' ==> 0 <= d < 10
  {
    c as int - '0' as int
  }

  predicate IsDigits(s: string) { forall i :: 0 <= i < |s| ==> '0' <= s[i] <= '9' }

  /** Decimal digits of a natural number, most significant first, no leading zero. */
  function Digits(n: nat): (s: string)
    ensures |s| > 0 && IsDigits(s)
    ensures |s| > 1 ==> s[0] != '0'
    ensures n > 0 ==> s[0] != '0'
    decreases n
  {
    if n < 10 then [DigitChar(n)] else Digits(n / 10) + [DigitChar(n % 10)]
  }

  /** The value of a string of decimal digits. */
  function ParseDigits(s: string): int
  {
    if |s| == 0 then 0 else ParseDigits(s[..|s| - 1]) * 10 + DigitValue(s[|s| - 1])
  }

  /** `strconv.Itoa`: base-10 text of an integer, with a leading `-` when negative. */
  function Itoa(n: int): (s: string)
    ensures |s| > 0
    ensures n < 0 <==> s[0] == '-'
    ensures n >= 0 ==> IsDigits(s)
    ensures n < 0 ==> IsDigits(s[1..])
    ensures n >= 0 ==> ParseDigits(s) == n
    ensures n < 0 ==> ParseDigits(s[1..]) == -n
    ensures n >= 0 && |s| > 1 ==> s[0] != '0'
    ensures n < 0 ==> |s| > 1 && s[1] != '0'
  {
    ParseDigitsOfDigits(if n < 0 then -n else n);
    assert n < 0 ==> ("-" + Digits(-n))[1..] == Digits(-n);
    if n < 0 then "-" + Digits(-n) else Digits(n)
  }

  /** Reading the digits back gives the number: `Digits` is its decimal representation. */
  lemma {:induction false} ParseDigitsOfDigits(n: nat)
    ensures ParseDigits(Digits(n)) == n
    decreases n
  {
    if n >= 10 {
      var s := Digits(n);
      ParseDigitsOfDigits(n / 10);
      assert s[..|s| - 1] == Digits(n / 10);
      assert DigitValue(DigitChar(n % 10)) == n % 10;
    } else {
      assert DigitValue(DigitChar(n)) == n;
    }
  }

  lemma DigitCharInjective(a: nat, b: nat)
    requires a < 10 && b < 10 && DigitChar(a) == DigitChar(b)
    ensures a == b
  {
    assert DigitValue(DigitChar(a)) == a;
    assert DigitValue(DigitChar(b)) == b;
  }

  /** Distinct naturals have distinct digit strings. */
  lemma {:induction false} DigitsInjective(a: nat, b: nat)
    requires Digits(a) == Digits(b)
    ensures a == b
    decreases a
  {
    if a < 10 && b < 10 {
      DigitCharInjective(a, b);
    } else if a >= 10 && b >= 10 {
      var da, db := Digits(a), Digits(b);
      assert da[..|da| - 1] == Digits(a / 10);
      assert db[..|db| - 1] == Digits(b / 10);
      DigitsInjective(a / 10, b / 10);
      DigitCharInjective(a % 10, b % 10);
    }
  }

  /** Distinct integers have distinct decimal text. */
  lemma ItoaInjective(a: int, b: int)
    requires Itoa(a) == Itoa(b)
    ensures a == b
  {
    if a < 0 && b < 0 {
      assert Itoa(a)[1..] == Digits(-a);
      assert Itoa(b)[1..] == Digits(-b);
      DigitsInjective(-a, -b);
    } else if a >= 0 && b >= 0 {
      DigitsInjective(a, b);
    }
  }

  /** Whether `t` starts with the verb `%s`. */
  predicate StartsWithVerb(t: string) { |t| >= 2 && t[0] == '%' && t[1] == 's' }

  /** The number of `%s` verbs in a template. */
  function Verbs(t: string): nat
  {
    if |t| == 0 then 0
    else if StartsWithVerb(t) then 1 + Verbs(t[2..])
    else Verbs(t[1..])
  }

  /**
   * `fmt.Sprintf(t, arg)` for a template whose only `%` characters begin a
   * `%s` verb. The first verb receives `arg` (`pending` while it is unused);
   * any later verb prints `%!s(MISSING)`; an argument no verb used is
   * appended as `%!(EXTRA string=...)`.
   */
  function Substitute(t: string, pending: Option<string>): string
  {
    if |t| == 0 then
      (match pending
       case Some(a) => "%!(EXTRA string=" + a + ")"
       case None => "")
    else if StartsWithVerb(t) then
      (match pending
       case Some(a) => a
       case None => "%!s(MISSING)") + Substitute(t[2..], None)
    else [t[0]] + Substitute(t[1..], pending)
  }

  function Sprintf(t: string, arg: string): string
  {
    Substitute(t, Some(arg))
  }

  /** Text without `%` holds no verb. */
  lemma {:induction false} NoPercentNoVerbs(s: string)
    requires '%' !in s
    ensures Verbs(s) == 0
  {
    if |s| > 0 {
      assert s[0] in s;
      assert forall c :: c in s[1..] ==> c in s;
      NoPercentNoVerbs(s[1..]);
    }
  }

  /** With no argument left to place, verb-free text is copied verbatim. */
  lemma {:induction false} SubstituteVerbFree(t: string)
    requires Verbs(t) == 0
    ensures Substitute(t, None) == t
  {
    if |t| > 0 {
      SubstituteVerbFree(t[1..]);
    }
  }

  /** One verb between `%`-free text and verb-free text is the template's only verb. */
  lemma {:induction false} VerbsAroundOne(pre: string, post: string)
    requires '%' !in pre && Verbs(post) == 0
    ensures Verbs(pre + "%s" + post) == 1
    decreases |pre|
  {
    var t := pre + "%s" + post;
    if |pre| == 0 {
      assert t == "%s" + post;
      assert t[2..] == post;
    } else {
      assert pre[0] in pre;
      assert !StartsWithVerb(t);
      assert t[1..] == pre[1..] + "%s" + post;
      assert forall c :: c in pre[1..] ==> c in pre;
      VerbsAroundOne(pre[1..], post);
    }
  }

  /** A template with exactly one verb splits around it, and the argument takes its place. */
  lemma {:induction false} SprintfOneVerb(pre: string, post: string, arg: string)
    requires '%' !in pre && Verbs(post) == 0
    ensures Sprintf(pre + "%s" + post, arg) == pre + arg + post
    decreases |pre|
  {
    var t := pre + "%s" + post;
    if |pre| == 0 {
      assert t == "%s" + post;
      assert t[2..] == post;
      SubstituteVerbFree(post);
    } else {
      assert pre[0] in pre;
      assert !StartsWithVerb(t);
      assert t[1..] == pre[1..] + "%s" + post;
      assert forall c :: c in pre[1..] ==> c in pre;
      SprintfOneVerb(pre[1..], post, arg);
    }
  }
}

=== FILE: hn.dfy ===
/**
 * The item service of internal/hn/hn.go. The HTTP client and the JSON
 * decoder are parameters: `client` answers one suffix with a body or an
 * error, `decodeIds` and `decodeItem` stand for `json.Unmarshal`. Every
 * call reports the suffixes it requested from the client, in order, so the
 * number of remote calls is part of the observable result.
 */
module Hn {

  import opened Wrappers
  import opened Constants
  import opened Format
  import opened Items
  import opened Cache

  newtype byte = x: int | 0 <= x < 256

  type Bytes = seq<byte>

  /** The three ways a service call fails. */
  datatype Error =
    | InvalidItemType        // `ErrInvalidItemType`
    | ClientError(msg: string) // whatever the client returned, unchanged
    | DecodeError(msg: string) // whatever the decoder returned, unchanged

  /** `err.Error()`. */
  function Message(e: Error): string
  {
    match e
    case InvalidItemType => "invalid item type"
    case ClientError(m) => m
    case DecodeError(m) => m
  }

  datatype Result<T> = Ok(value: T) | Err(error: Error)

  /** One reply of `HttpClient.Get`. */
  datatype Response = Body(bytes: Bytes) | Failed(msg: string)

  /** One outcome of `json.Unmarshal`. */
  datatype Decoded<T> = Decoded(value: T) | Malformed(msg: string)

  /** `getSuffix` as written: `"ask"` has no case and falls to the error. */
  function GetSuffix(t: ItemType): (r: Result<string>)
    ensures t == NewItems ==> r == Ok(NewSuffix)
    ensures t == TopItems ==> r == Ok(TopSuffix)
    ensures t == BestItems ==> r == Ok(BestSuffix)
    ensures t == SingleItem ==> r == Ok(SingleSuffix)
    ensures t != NewItems && t != TopItems && t != BestItems && t != SingleItem
            ==> r == Err(InvalidItemType)
  {
    if t == NewItems then Ok(NewSuffix)
    else if t == TopItems then Ok(TopSuffix)
    else if t == BestItems then Ok(BestSuffix)
    else if t == SingleItem then Ok(SingleSuffix)
    else Err(InvalidItemType)
  }

  /** The empty type and the Ask type are both rejected by the code as written. */
  lemma SuffixRejectsEmptyAndAsk()
    ensures GetSuffix("") == Err(InvalidItemType)
    ensures GetSuffix(AskItems) == Err(InvalidItemType)
  {
  }

  /** `getSuffix` with the `"ask"` case the Ask tab needs. */
  function GetSuffixIntended(t: ItemType): (r: Result<string>)
    ensures t == AskItems ==> r == Ok(AskSuffix)
    ensures t != AskItems ==> r == GetSuffix(t)
  {
    if t == AskItems then Ok(AskSuffix) else GetSuffix(t)
  }

  /** With the Ask case every value of the enumeration resolves, and to distinct suffixes. */
  lemma IntendedSuffixTotalOnItems()
    ensures forall i :: 0 <= i < |AllItems| ==> GetSuffixIntended(AllItems[i]).Ok?
    ensures forall i, j :: 0 <= i < j < |AllItems| ==>
              GetSuffixIntended(AllItems[i]) != GetSuffixIntended(AllItems[j])
  {
  }

  /** Result of `GetItems` and the suffixes it sent to the client. */
  datatype ListCall = ListCall(result: Result<seq<int>>, requests: seq<string>)

  /** Fetch and decode an ID list once the suffix is resolved (or failed to resolve). */
  function FetchList(suffix: Result<string>, client: string -> Response,
                     decodeIds: Bytes -> Decoded<seq<int>>): (r: ListCall)
    ensures suffix.Err? ==> r == ListCall(Err(suffix.error), [])
    ensures suffix.Ok? ==> r.requests == [suffix.value]
    ensures suffix.Ok? && client(suffix.value).Failed? ==>
              r.result == Err(ClientError(client(suffix.value).msg))
    ensures suffix.Ok? && client(suffix.value).Body? ==>
              match decodeIds(client(suffix.value).bytes)
              case Decoded(ids) => r.result == Ok(ids)
              case Malformed(m) => r.result == Err(DecodeError(m))
  {
    match suffix
    case Err(e) => ListCall(Err(e), [])
    case Ok(s) =>
      var result :=
        match client(s)
        case Failed(m) => Err(ClientError(m))
        case Body(b) =>
          (match decodeIds(b)
           case Malformed(m) => Err(DecodeError(m))
           case Decoded(ids) => Ok(ids));
      ListCall(result, [s])
  }

  /** `HN.GetItems`: resolve the type, fetch its list, decode it. */
  function GetItems(client: string -> Response, decodeIds: Bytes -> Decoded<seq<int>>,
                    t: ItemType): (r: ListCall)
    ensures GetSuffix(t).Err? ==> r.result == Err(InvalidItemType) && r.requests == []
    ensures GetSuffix(t).Ok? ==> r.requests == [GetSuffix(t).value]
    ensures r.result.Ok? ==> client(r.requests[0]).Body?
                             && decodeIds(client(r.requests[0]).bytes) == Decoded(r.result.value)
    ensures GetSuffix(t).Ok? && client(GetSuffix(t).value).Failed? ==>
              r.result == Err(ClientError(client(GetSuffix(t).value).msg))
    ensures GetSuffix(t).Ok? && client(GetSuffix(t).value).Body? ==>
              match decodeIds(client(GetSuffix(t).value).bytes)
              case Decoded(ids) => r.result == Ok(ids)
              case Malformed(m) => r.result == Err(DecodeError(m))
  {
    FetchList(GetSuffix(t), client, decodeIds)
  }

  /** `GetItems` as it would be with the Ask case in `getSuffix`. */
  function GetItemsIntended(client: string -> Response, decodeIds: Bytes -> Decoded<seq<int>>,
                            t: ItemType): (r: ListCall)
    ensures t != AskItems ==> r == GetItems(client, decodeIds, t)
    ensures t == AskItems ==> r.requests == [AskSuffix]
    ensures t == AskItems && client(AskSuffix).Failed? ==>
              r.result == Err(ClientError(client(AskSuffix).msg))
    ensures t == AskItems && client(AskSuffix).Body? ==>
              match decodeIds(client(AskSuffix).bytes)
              case Decoded(ids) => r.result == Ok(ids)
              case Malformed(m) => r.result == Err(DecodeError(m))
  {
    FetchList(GetSuffixIntended(t), client, decodeIds)
  }

  /** A client error reaches the caller unchanged, with no IDs. */
  lemma GetItemsPropagatesClientError(client: string -> Response,
                                      decodeIds: Bytes -> Decoded<seq<int>>, t: ItemType)
    requires GetSuffix(t).Ok? && client(GetSuffix(t).value).Failed?
    ensures GetItems(client, decodeIds, t).result.Err?
    ensures Message(GetItems(client, decodeIds, t).result.error) == client(GetSuffix(t).value).msg
  {
  }

  /** The suffix of one item: the single-item template filled with the decimal ID. */
  function ItemSuffix(id: int): (s: string)
    ensures s == "item/" + Itoa(id) + ".json"
  {
    var template := GetSuffix(SingleItem).value;
    assert template == "item/" + "%s" + ".json";
    NoPercentNoVerbs(".json");
    SprintfOneVerb("item/", ".json", Itoa(id));
    Sprintf(template, Itoa(id))
  }

  /** The single-item template has exactly one substitution point. */
  lemma SingleSuffixHasOneVerb()
    ensures Verbs(SingleSuffix) == 1
  {
    assert SingleSuffix == "item/" + "%s" + ".json";
    NoPercentNoVerbs(".json");
    VerbsAroundOne("item/", ".json");
  }

  /** Distinct IDs are requested under distinct suffixes. */
  lemma ItemSuffixInjective(a: int, b: int)
    ensures ItemSuffix(a) == ItemSuffix(b) <==> a == b
  {
    if ItemSuffix(a) == ItemSuffix(b) {
      var sa, sb := ItemSuffix(a), ItemSuffix(b);
      assert sa[5..|sa| - 5] == Itoa(a);
      assert sb[5..|sb| - 5] == Itoa(b);
      ItoaInjective(a, b);
    }
  }

  /** Result of `GetItem`, the suffixes requested, the cache writes made and the cache after. */
  datatype ItemCall = ItemCall(result: Result<Item>, requests: seq<string>,
                               stores: seq<(int, Item)>, cache: MemCache)

  /** `HN.GetItem`: answer from the cache, else fetch, decode and store. */
  function GetItem(client: string -> Response, decodeItem: Bytes -> Decoded<Item>,
                   cache: MemCache, id: int): (r: ItemCall)
    ensures Cache.Get(cache, id).Some? ==>
              r == ItemCall(Ok(Cache.Get(cache, id).value), [], [], cache)
    ensures Cache.Get(cache, id).None? ==> r.requests == [ItemSuffix(id)]
    ensures Cache.Get(cache, id).None? && r.result.Ok? ==>
              && client(ItemSuffix(id)).Body?
              && decodeItem(client(ItemSuffix(id)).bytes) == Decoded(r.result.value)
              && r.stores == [(id, r.result.value)]
              && r.cache == Set(cache, id, r.result.value)
    ensures Cache.Get(cache, id).None? && client(ItemSuffix(id)).Failed? ==>
              r.result == Err(ClientError(client(ItemSuffix(id)).msg))
    ensures Cache.Get(cache, id).None? && client(ItemSuffix(id)).Body?
            && decodeItem(client(ItemSuffix(id)).bytes).Malformed? ==>
              r.result == Err(DecodeError(decodeItem(client(ItemSuffix(id)).bytes).msg))
    ensures Cache.Get(cache, id).None? && client(ItemSuffix(id)).Body?
            && decodeItem(client(ItemSuffix(id)).bytes).Decoded? ==>
              r.result == Ok(decodeItem(client(ItemSuffix(id)).bytes).value)
    ensures r.result.Err? ==> r.stores == [] && r.cache == cache
  {
    match Cache.Get(cache, id)
    case Some(v) => ItemCall(Ok(v), [], [], cache)
    case None =>
      var uri := ItemSuffix(id);
      match client(uri)
      case Failed(m) => ItemCall(Err(ClientError(m)), [uri], [], cache)
      case Body(b) =>
        match decodeItem(b)
        case Malformed(m) => ItemCall(Err(DecodeError(m)), [uri], [], cache)
        case Decoded(it) => ItemCall(Ok(it), [uri], [(id, it)], Set(cache, id, it))
  }

  /** What `GetItem` answers for `id` when nothing is cached. */
  function Fresh(client: string -> Response, decodeItem: Bytes -> Decoded<Item>, id: int): Result<Item>
  {
    GetItem(client, decodeItem, Cache.New(), id).result
  }

  /** Every cached item is what a fresh fetch of its key would decode. */
  ghost predicate Consistent(client: string -> Response, decodeItem: Bytes -> Decoded<Item>,
                             cache: MemCache)
  {
    forall k :: k in cache.items ==> Fresh(client, decodeItem, k) == Ok(cache.items[k])
  }

  /** An empty cache is consistent, so a fresh service starts in the state the lemmas below assume. */
  lemma NewIsConsistent(client: string -> Response, decodeItem: Bytes -> Decoded<Item>)
    ensures Consistent(client, decodeItem, Cache.New())
  {
  }

  /**
   * The cache is invisible in results: from a consistent cache, `GetItem`
   * answers what a fresh fetch answers and leaves the cache consistent.
   */
  lemma GetItemAgreesWithFresh(client: string -> Response, decodeItem: Bytes -> Decoded<Item>,
                               cache: MemCache, id: int)
    requires Consistent(client, decodeItem, cache)
    ensures GetItem(client, decodeItem, cache, id).result == Fresh(client, decodeItem, id)
    ensures Consistent(client, decodeItem, GetItem(client, decodeItem, cache, id).cache)
  {
    var r := GetItem(client, decodeItem, cache, id);
    if id in cache.items {
      assert Fresh(client, decodeItem, id) == Ok(cache.items[id]);
    } else {
      assert r.result == Fresh(client, decodeItem, id);
      if r.result.Ok? {
        forall k | k in r.cache.items
          ensures Fresh(client, decodeItem, k) == Ok(r.cache.items[k])
        {
          if k != id {
            assert k in cache.items;
          }
        }
      }
    }
  }

  /** After a successful miss, asking again is a hit: no request, no write. */
  lemma SecondGetItemHits(client: string -> Response, decodeItem: Bytes -> Decoded<Item>,
                          cache: MemCache, id: int)
    requires GetItem(client, decodeItem, cache, id).result.Ok?
    ensures var second := GetItem(client, decodeItem, GetItem(client, decodeItem, cache, id).cache, id);
            second.requests == [] && second.stores == []
            && second.result == GetItem(client, decodeItem, cache, id).result
  {
  }

  /** `GetItem` for each ID in turn, threading the cache; results in call order. */
  function GetItemsInTurn(client: string -> Response, decodeItem: Bytes -> Decoded<Item>,
                          cache: MemCache, ids: seq<int>): (r: (seq<Result<Item>>, MemCache))
    ensures |r.0| == |ids|
    ensures forall k :: k in cache.items ==> k in r.1.items && r.1.items[k] == cache.items[k]
    ensures forall i :: 0 <= i < |ids| && r.0[i].Ok? ==>
              ids[i] in r.1.items && r.1.items[ids[i]] == r.0[i].value
    decreases |ids|
  {
    if |ids| == 0 then ([], cache)
    else
      var first := GetItem(client, decodeItem, cache, ids[0]);
      var rest := GetItemsInTurn(client, decodeItem, first.cache, ids[1..]);
      ([first.result] + rest.0, rest.1)
  }

  /**
   * Whatever order the lookups happen in, each one answers what a fresh fetch
   * of its ID would: the shared cache cannot make one lookup see another's result
   * for a different key, nor change the answer for the same key.
   */
  lemma {:induction false} InTurnAgreesWithFresh(client: string -> Response,
                                                 decodeItem: Bytes -> Decoded<Item>,
                                                 cache: MemCache, ids: seq<int>)
    requires Consistent(client, decodeItem, cache)
    ensures forall i :: 0 <= i < |ids| ==>
              GetItemsInTurn(client, decodeItem, cache, ids).0[i] == Fresh(client, decodeItem, ids[i])
    ensures Consistent(client, decodeItem, GetItemsInTurn(client, decodeItem, cache, ids).1)
    decreases |ids|
  {
    if |ids| > 0 {
      var first := GetItem(client, decodeItem, cache, ids[0]);
      GetItemAgreesWithFresh(client, decodeItem, cache, ids[0]);
      InTurnAgreesWithFresh(client, decodeItem, first.cache, ids[1..]);
      var r := GetItemsInTurn(client, decodeItem, cache, ids);
      forall i | 0 <= i < |ids|
        ensures r.0[i] == Fresh(client, decodeItem, ids[i])
      {
        if i > 0 {
          assert ids[i] == ids[1..][i - 1];
        }
      }
    }
  }
}

=== FILE: item.dfy ===
/**
 * The story record of internal/item/item.go and its list-facing text
 * accessors. The visited style is a rendering function supplied by the
 * caller: its look is presentation, not logic.
 */
module Items {

  import opened Format

  /** One remote record, field for field as the JSON decoder fills it. */
  datatype Item = Item(
    id: int,
    parent: int,
    kids: seq<int>,
    descendants: int,
    parts: seq<int>,
    score: int,
    timestamp: int,
    author: string,
    kind: string,
    titl: string,
    text: string,
    url: string,
    dead: bool,
    deleted: bool,
    visited: bool)

  /** The zero value `item.Item{}`. */
  const Zero: Item := Item(0, 0, [], 0, [], 0, 0, "", "", "", "", "", false, false, false)

  /** `item.Item{Titl: t}`: every other field at its zero value. */
  function Titled(t: string): (it: Item)
    ensures it.titl == t
    ensures it.(titl := "") == Zero
  {
    Zero.(titl := t)
  }

  /** The unstyled line: the title, followed by ` (url)` when there is a URL. */
  function PlainTitle(it: Item): (r: string)
    ensures it.url == "" ==> r == it.titl
    ensures it.url != "" ==> r == it.titl + " (" + it.url + ")"
  {
    assert "" + "%s" + "" == "%s";
    NoPercentNoVerbs("");
    SprintfOneVerb("", "", it.titl);
    if it.url == "" then Sprintf("%s", it.titl)
    else it.titl + " (" + it.url + ")"
  }

  /** `Item.Title`: the plain line, passed through `render` when the item was visited. */
  function Title(it: Item, render: string -> string): (r: string)
    ensures !it.visited && it.url == "" ==> r == it.titl
    ensures !it.visited && it.url != "" ==> r == it.titl + " (" + it.url + ")"
    ensures it.visited && it.url == "" ==> r == render(it.titl)
    ensures it.visited && it.url != "" ==> r == render(it.titl + " (" + it.url + ")")
  {
    var text := PlainTitle(it);
    if it.visited then render(text) else text
  }

  /** A visited item shows exactly the rendering of what it shows unvisited. */
  lemma VisitedTitleRendersUnvisited(it: Item, render: string -> string)
    ensures Title(it.(visited := true), render) == render(Title(it.(visited := false), render))
  {
  }

  /** `Item.FilterValue`: the list filters on the bare title. */
  function FilterValue(it: Item): (r: string)
    ensures r == it.titl
  {
    it.titl
  }

  /** The filter text ignores the URL and the visited flag. */
  lemma FilterValueIgnoresUrlAndVisited(it: Item, u: string, v: bool)
    ensures FilterValue(it.(url := u, visited := v)) == FilterValue(it)
  {
  }

  /**
   * The filter text is where the plain line starts, and it is the whole line
   * exactly when the item has no URL.
   */
  lemma FilterValuePrefixesLine(it: Item)
    ensures FilterValue(it) <= PlainTitle(it)
    ensures FilterValue(it) == PlainTitle(it) <==> it.url == ""
  {
    if it.url != "" {
      assert |PlainTitle(it)| > |it.titl|;
    }
  }

  /** The line shown depends on nothing but the title, the URL and the visited flag. */
  lemma TitleDependsOnlyOnShownFields(a: Item, b: Item, render: string -> string)
    requires a.titl == b.titl && a.url == b.url && a.visited == b.visited
    ensures Title(a, render) == Title(b, render)
  {
  }
}

=== FILE: model.dfy ===
/**
 * The controller of internal/tui/model/model.go: construction (`New`) and
 * the `Update` transitions, on the abstract state of `TuiState`.
 */
module TuiModel {

  import opened Wrappers
  import opened Constants
  import opened Items
  import opened Hn
  import opened Utils
  import opened TuiState

  /** The item types behind the tabs, in tab order. */
  const TabItems: seq<ItemType> := [TopItems, NewItems, BestItems, AskItems]

  /** The tab labels, in tab order. */
  const TabLabels: seq<string> := [TabTop, TabNew, TabBest, TabAsk]

  /** A fresh list widget: no items, first page, not filtering, nothing selected. */
  function EmptyList(perPage: int): (l: ListState)
    ensures l.items == [] && l.page == 0 && !l.filtering && l.selected == None
  {
    ListState([], 0, perPage, false, None)
  }

  /**
   * `New`: load the Top, Best, New and Ask ID lists in that order, stopping at
   * the first error, and store them in tab order Top, New, Best, Ask. Loading
   * the configuration and the theme is not modelled: `workers` stands for the
   * configured worker count, and `perPage` for the page size the list widget
   * gives a list created with no size.
   */
  function NewModel(getItems: ItemType -> Result<seq<int>>, workers: int, perPage: int)
    : (r: Result<Model>)
    ensures getItems(TopItems).Err? ==> r == Err(getItems(TopItems).error)
    ensures getItems(TopItems).Ok? && getItems(BestItems).Err? ==> r == Err(getItems(BestItems).error)
    ensures (getItems(TopItems).Ok? && getItems(BestItems).Ok? && getItems(NewItems).Err?)
            ==> r == Err(getItems(NewItems).error)
    ensures (getItems(TopItems).Ok? && getItems(BestItems).Ok? && getItems(NewItems).Ok?
             && getItems(AskItems).Err?) ==> r == Err(getItems(AskItems).error)
    ensures (getItems(TopItems).Ok? && getItems(BestItems).Ok? && getItems(NewItems).Ok?
             && getItems(AskItems).Ok?) ==> r.Ok?
    ensures r.Ok? ==>
              && Valid(r.value) && r.value.tabs == TabLabels && r.value.activeTab == 0
              && !r.value.loading && r.value.workers == workers
              && r.value.width == 0 && r.value.height == 0
              && (forall i :: 0 <= i < TabCount ==> getItems(TabItems[i]) == Ok(r.value.ids[i]))
              && (forall i :: 0 <= i < TabCount ==> r.value.visited[i] == {}
                                                    && r.value.content[i] == EmptyList(perPage))
  {
    match getItems(TopItems)
    case Err(e) => Err(e)
    case Ok(top) =>
      match getItems(BestItems)
      case Err(e) => Err(e)
      case Ok(best) =>
        match getItems(NewItems)
        case Err(e) => Err(e)
        case Ok(newest) =>
          match getItems(AskItems)
          case Err(e) => Err(e)
          case Ok(ask) =>
            Ok(Model(TabLabels, seq(TabCount, _ => EmptyList(perPage)), 0, false,
                     [top, newest, best, ask], seq(TabCount, _ => {}), 0, 0, workers))
  }

  /** Each tab's label is the title-cased name of the item type whose IDs it shows. */
  lemma TabLabelsMatchItems()
    ensures forall i :: 0 <= i < TabCount ==> Constants.Title(TabLabels[i]) == Constants.Title(TabItems[i])
  {
  }

  /**
   * With the item service as written the controller can never be built: the
   * Ask list is requested, and `getSuffix` rejects `"ask"` before any request.
   */
  lemma NewModelNeverSucceeds(client: string -> Response, decodeIds: Bytes -> Decoded<seq<int>>,
                              workers: int, perPage: int)
    ensures NewModel(t => GetItems(client, decodeIds, t).result, workers, perPage).Err?
  {
    assert GetItems(client, decodeIds, AskItems).result == Err(InvalidItemType);
  }

  /** With the Ask suffix resolved, the controller is built whenever the four lists load. */
  lemma NewModelIntendedSucceeds(client: string -> Response, decodeIds: Bytes -> Decoded<seq<int>>,
                                 workers: int, perPage: int)
    requires forall i :: 0 <= i < TabCount ==> GetItemsIntended(client, decodeIds, TabItems[i]).result.Ok?
    ensures NewModel(t => GetItemsIntended(client, decodeIds, t).result, workers, perPage).Ok?
  {
    assert GetItemsIntended(client, decodeIds, TabItems[0]).result.Ok?;
    assert GetItemsIntended(client, decodeIds, TabItems[1]).result.Ok?;
    assert GetItemsIntended(client, decodeIds, TabItems[2]).result.Ok?;
    assert GetItemsIntended(client, decodeIds, TabItems[3]).result.Ok?;
  }

  /** How `Update`'s switch ends: by returning, or by falling through to the list's own update. */
  datatype Step = Return(model: Model, cmd: Cmd) | FallThrough(model: Model)

  /** The list of the active tab. */
  function Active(m: Model): ListState
    requires Valid(m)
  {
    m.content[m.activeTab]
  }

  /** The list of the active tab replaced by `l`. */
  function WithActive(m: Model, l: ListState): (r: Model)
    requires Valid(m)
    ensures Valid(r) && Active(r) == l
    ensures r.(content := m.content) == m
    ensures forall j :: 0 <= j < TabCount && j != m.activeTab ==> r.content[j] == m.content[j]
  {
    m.(content := m.content[m.activeTab := l])
  }

  /**
   * A fetched page arrives: stop loading, give the active tab its items with
   * the page appended, mark the page the list then shows as visited, and move
   * to the next page.
   */
  function OnNext(env: Env, m: Model, items: seq<Item>): (r: Model)
    requires Valid(m)
    ensures Valid(r) && r.activeTab == m.activeTab && !r.loading
    ensures Active(r).items == Active(m).items + items
    ensures var l := SetItems(env, Active(m), Active(m).items + items);
            && Active(r) == l.(page := env.nextPage(l))
            && r.visited[m.activeTab] == m.visited[m.activeTab] + {l.page}
    ensures forall j :: 0 <= j < TabCount && j != m.activeTab ==>
              r.content[j] == m.content[j] && r.visited[j] == m.visited[j]
    ensures r.(content := m.content, visited := m.visited, loading := m.loading) == m
  {
    var a := m.activeTab;
    var l := SetItems(env, Active(m), Active(m).items + items);
    var m' := m.(loading := false, visited := m.visited[a := m.visited[a] + {l.page}]);
    WithActive(m', l.(page := env.nextPage(l)))
  }

  /** Enter on the selected item: open its URL; mark it visited unless opening failed. */
  function OnEnter(env: Env, m: Model): (s: Step)
    requires Valid(m)
    ensures s.FallThrough? ==> Valid(s.model) && s.model.activeTab == m.activeTab
    ensures (Active(m).selected.None? || !(0 <= Active(m).selected.value < |Active(m).items|))
            ==> s == FallThrough(m)
    ensures Active(m).selected.Some? && 0 <= Active(m).selected.value < |Active(m).items| ==>
              var i := Active(m).selected.value;
              var it := Active(m).items[i];
              && (Open(it.url, env.os, env.start).err.Some? ==> s == Return(m, NoCmd))
              && (Open(it.url, env.os, env.start).err.None? ==>
                    s.FallThrough?
                    && Active(s.model).items == Active(m).items[i := it.(visited := true)]
                    && Active(s.model).(items := Active(m).items) == Active(m)
                    && (forall j :: 0 <= j < TabCount && j != m.activeTab ==>
                          s.model.content[j] == m.content[j])
                    && s.model.(content := m.content) == m)
  {
    var l := Active(m);
    match l.selected
    case Some(i) =>
      if 0 <= i < |l.items| then
        var it := l.items[i];
        if Open(it.url, env.os, env.start).err.Some? then Return(m, NoCmd)
        else FallThrough(WithActive(m, l.(items := l.items[i := it.(visited := true)])))
      else FallThrough(m)
    case None => FallThrough(m)
  }

  /** The key switch; a filtering list gets every key itself. */
  function OnKey(env: Env, m: Model, key: string): (s: Step)
    requires Valid(m)
    ensures Active(m).filtering ==> s == FallThrough(m)
    ensures !Active(m).filtering && (key == "ctrl+c" || key == "q") ==> s == Return(m, Quit)
    ensures !Active(m).filtering && key == "enter" ==> s == OnEnter(env, m)
    ensures (!Active(m).filtering
             && key !in {"ctrl+c", "q", "enter", "n", "t", "tab", "T", "shift+tab"}) ==> s == FallThrough(m)
    ensures !Active(m).filtering && key == "n" && Active(m).page !in m.visited[m.activeTab] ==>
              s == Return(m.(loading := true), FetchNext(m.activeTab, Active(m).perPage, Active(m).page + 1))
    ensures !Active(m).filtering && key == "n" && Active(m).page in m.visited[m.activeTab] ==>
              s == FallThrough(m)
    ensures !Active(m).filtering && (key == "t" || key == "tab") ==>
              s == FallThrough(m.(activeTab := Min(m.activeTab + 1, |m.tabs| - 1)))
    ensures !Active(m).filtering && (key == "T" || key == "shift+tab") ==>
              s == FallThrough(m.(activeTab := Max(m.activeTab - 1, 0)))
    ensures s.FallThrough? ==> Valid(s.model)
  {
    var l := Active(m);
    if l.filtering then FallThrough(m)
    else if key == "ctrl+c" || key == "q" then Return(m, Quit)
    else if key == "enter" then OnEnter(env, m)
    else if key == "n" then
      if l.page !in m.visited[m.activeTab] then
        Return(m.(loading := true), FetchNext(m.activeTab, l.perPage, l.page + 1))
      else FallThrough(m)
    else if key == "t" || key == "tab" then FallThrough(m.(activeTab := Min(m.activeTab + 1, |m.tabs| - 1)))
    else if key == "T" || key == "shift+tab" then FallThrough(m.(activeTab := Max(m.activeTab - 1, 0)))
    else FallThrough(m)
  }

  /** The message switch of `Update`. */
  function Handle(env: Env, m: Model, msg: Msg): (s: Step)
    requires Valid(m)
    ensures s.FallThrough? ==> Valid(s.model)
    ensures msg.Next? ==> s == FallThrough(OnNext(env, m, msg.items))
    ensures msg.Key? ==> s == OnKey(env, m, msg.key)
    ensures msg.InitDone? ==> s == FallThrough(m.(loading := false))
    ensures msg.Other? ==> s == FallThrough(m)
  {
    match msg
    case Next(items) => FallThrough(OnNext(env, m, items))
    case Key(k) => OnKey(env, m, k)
    case InitDone => FallThrough(m.(loading := false))
    case SpinnerTick => if !m.loading then Return(m, NoCmd) else Return(m, SpinnerCmd)
    case WindowSize(w, h) => Return(m.(width := w, height := h, loading := true), TickAndInit)
    case Other => FallThrough(m)
  }

  /** The controller after `Update`, and the command it returns. */
  datatype Updated = Updated(model: Model, cmd: Cmd)

  /**
   * `Update`: run the switch; unless it returned, hand the message to the
   * active tab's list (after the switch, so a tab change hands it to the new tab).
   */
  function Update(env: Env, m: Model, msg: Msg): (u: Updated)
    requires Valid(m)
    ensures Valid(u.model)
    ensures Handle(env, m, msg).Return? ==>
              u == Updated(Handle(env, m, msg).model, Handle(env, m, msg).cmd)
    ensures Handle(env, m, msg).FallThrough? ==>
              var s := Handle(env, m, msg).model;
              u == Updated(WithActive(s, env.listUpdate(Active(s), msg)), ListCmd)
  {
    match Handle(env, m, msg)
    case Return(m', c) => Updated(m', c)
    case FallThrough(m') => Updated(WithActive(m', env.listUpdate(Active(m'), msg)), ListCmd)
  }

  /** Messages processed one after another. */
  function Run(env: Env, m: Model, msgs: seq<Msg>): (r: Model)
    requires Valid(m)
    ensures Valid(r)
    decreases |msgs|
  {
    if |msgs| == 0 then m else Run(env, Update(env, m, msgs[0]).model, msgs[1..])
  }

  /** Whatever messages arrive, the active tab stays one of the four. */
  lemma ActiveTabInRange(env: Env, m: Model, msgs: seq<Msg>)
    requires Valid(m)
    ensures 0 <= Run(env, m, msgs).activeTab <= TabCount - 1
  {
  }

  /** The keys that switch tabs. */
  predicate TabKey(msg: Msg)
  {
    msg.Key? && msg.key in {"t", "tab", "T", "shift+tab"}
  }

  /** One message that is not a tab key leaves the active tab where it was. */
  lemma UpdateKeepsTab(env: Env, m: Model, msg: Msg)
    requires Valid(m) && !TabKey(msg)
    ensures Update(env, m, msg).model.activeTab == m.activeTab
  {
    if msg.Key? && !Active(m).filtering && msg.key == "enter" {
      assert Handle(env, m, msg) == OnEnter(env, m);
    }
  }

  /** Only the tab keys move the active tab: no other message, in any number, changes it. */
  lemma {:induction false} ActiveTabMovesOnlyOnTabKeys(env: Env, m: Model, msgs: seq<Msg>)
    requires Valid(m)
    requires forall i :: 0 <= i < |msgs| ==> !TabKey(msgs[i])
    ensures Run(env, m, msgs).activeTab == m.activeTab
    decreases |msgs|
  {
    if |msgs| > 0 {
      UpdateKeepsTab(env, m, msgs[0]);
      ActiveTabMovesOnlyOnTabKeys(env, Update(env, m, msgs[0]).model, msgs[1..]);
    }
  }

  /** `t` and `T` move one tab right or left and stop at the ends. */
  lemma TabKeysClamp(env: Env, m: Model)
    requires Valid(m) && !Active(m).filtering
    ensures Update(env, m, Key("t")).model.activeTab == if m.activeTab < 3 then m.activeTab + 1 else 3
    ensures Update(env, m, Key("T")).model.activeTab == if m.activeTab > 0 then m.activeTab - 1 else 0
  {
  }

  /** While the list is filtering, no key reaches the switch: only the list sees it. */
  lemma FilteringBypassesKeys(env: Env, m: Model, key: string)
    requires Valid(m) && Active(m).filtering
    ensures Update(env, m, Key(key)) == Updated(WithActive(m, env.listUpdate(Active(m), Key(key))), ListCmd)
  {
  }

  /** `n` on an unvisited page asks for the following page of the active tab, and only then. */
  lemma NextKeyRequestsOnce(env: Env, m: Model)
    requires Valid(m) && !Active(m).filtering
    ensures Update(env, m, Key("n")).cmd.FetchNext? <==> Active(m).page !in m.visited[m.activeTab]
    ensures Update(env, m, Key("n")).cmd.FetchNext? ==>
              && Update(env, m, Key("n")).cmd
                 == FetchNext(m.activeTab, Active(m).perPage, Active(m).page + 1)
              && Update(env, m, Key("n")).model.loading
  {
  }

  /** An arriving page is added after the items already shown, which stay as they were. */
  lemma NextMessageKeepsPrefix(env: Env, m: Model, items: seq<Item>)
    requires Valid(m)
    ensures var s := Handle(env, m, Next(items)).model;
            && Active(m).items <= Active(s).items
            && Active(s).items[|Active(m).items|..] == items
            && SetItems(env, Active(m), Active(m).items + items).page in s.visited[m.activeTab]
  {
  }

  /**
   * A page requested on one tab lands on whichever tab is active when it
   * arrives: request with `n`, switch with `t`, and the page goes to the new
   * tab while the requesting tab's items never change.
   */
  lemma NextLandsOnActiveTab(env: Env, m: Model, items: seq<Item>)
    requires Valid(m) && m.activeTab < 3 && !Active(m).filtering
    requires Active(m).page !in m.visited[m.activeTab]
    ensures var asked := Update(env, m, Key("n"));
            var moved := Update(env, asked.model, Key("t"));
            var arrived := Update(env, moved.model, Next(items));
            && asked.cmd == FetchNext(m.activeTab, Active(m).perPage, Active(m).page + 1)
            && arrived.model.content[m.activeTab] == m.content[m.activeTab]
            && Handle(env, moved.model, Next(items)).model.content[m.activeTab + 1].items
               == moved.model.content[m.activeTab + 1].items + items
  {
    var asked := Update(env, m, Key("n"));
    assert asked.model == m.(loading := true);
    var moved := Update(env, asked.model, Key("t"));
    assert moved.model.activeTab == m.activeTab + 1;
    assert moved.model.content[m.activeTab] == m.content[m.activeTab];
  }

  /**
   * A fetched page applied to the tab that requested it, whichever tab is
   * active: stop loading, append to that tab, mark its page visited, advance it.
   */
  function OnNextFor(env: Env, m: Model, tab: int, items: seq<Item>): (r: Model)
    requires Valid(m) && 0 <= tab < TabCount
    ensures Valid(r) && r.activeTab == m.activeTab && !r.loading
    ensures r.content[tab].items == m.content[tab].items + items
    ensures r.visited[tab] == m.visited[tab] + {SetItems(env, m.content[tab], m.content[tab].items + items).page}
    ensures var l := SetItems(env, m.content[tab], m.content[tab].items + items);
            r.content[tab] == l.(page := env.nextPage(l))
    ensures forall j :: 0 <= j < TabCount && j != tab ==>
              r.content[j] == m.content[j] && r.visited[j] == m.visited[j]
    ensures r.(content := m.content, visited := m.visited, loading := m.loading) == m
  {
    var l := SetItems(env, m.content[tab], m.content[tab].items + items);
    m.(loading := false,
       content := m.content[tab := l.(page := env.nextPage(l))],
       visited := m.visited[tab := m.visited[tab] + {l.page}])
  }

  /** With the page routed to its requester, switching tabs in between no longer misplaces it. */
  lemma NextForLandsOnRequester(env: Env, m: Model, items: seq<Item>)
    requires Valid(m) && m.activeTab < 3 && !Active(m).filtering
    requires Active(m).page !in m.visited[m.activeTab]
    ensures var asked := Update(env, m, Key("n"));
            var moved := Update(env, asked.model, Key("t"));
            var arrived := OnNextFor(env, moved.model, asked.cmd.tab, items);
            && asked.cmd.FetchNext?
            && arrived.content[m.activeTab].items == m.content[m.activeTab].items + items
            && SetItems(env, m.content[m.activeTab], m.content[m.activeTab].items + items).page
               in arrived.visited[m.activeTab]
  {
    var asked := Update(env, m, Key("n"));
    assert asked.model == m.(loading := true);
    var moved := Update(env, asked.model, Key("t"));
    assert moved.model.content[m.activeTab] == m.content[m.activeTab];
  }

  /** A window resize records the size, shows the spinner and starts the initial load. */
  lemma ResizeStartsInit(env: Env, m: Model, w: int, h: int)
    requires Valid(m)
    ensures Update(env, m, WindowSize(w, h)) == Updated(m.(width := w, height := h, loading := true), TickAndInit)
  {
  }

  /** The spinner only keeps ticking while something is loading. */
  lemma SpinnerOnlyWhileLoading(env: Env, m: Model)
    requires Valid(m)
    ensures Update(env, m, SpinnerTick).model == m
    ensures Update(env, m, SpinnerTick).cmd == (if m.loading then SpinnerCmd else NoCmd)
  {
  }
}

=== FILE: state.dfy ===
/**
 * The state of the terminal controller (the `model` struct of
 * internal/tui/model/model.go) with the list widget reduced to the parts the
 * controller reads or writes, and the messages and commands it exchanges
 * with the event loop.
 */
module TuiState {

  import opened Wrappers
  import opened Items
  import Utils

  /** One tab's list widget: its items, paginator page and size, filter mode and selection. */
  datatype ListState = ListState(items: seq<Item>, page: int, perPage: int,
                                 filtering: bool, selected: Option<int>)

  /** The controller: tab labels, one list, ID list and visited-page set per tab, and the rest. */
  datatype Model = Model(
    tabs: seq<string>,
    content: seq<ListState>,
    activeTab: int,
    loading: bool,
    ids: seq<seq<int>>,
    visited: seq<set<int>>,
    width: int,
    height: int,
    workers: int)

  /** Messages delivered to `Update`. */
  datatype Msg =
    | Next(items: seq<Item>)              // a fetched page
    | Key(key: string)                    // `tea.KeyMsg`, by its string form
    | InitDone                            // `initMsg`
    | WindowSize(w: int, h: int)          // `tea.WindowSizeMsg`
    | SpinnerTick                         // `spinner.TickMsg`
    | Other                               // anything else

  /** Commands `Update` hands back to the event loop. */
  datatype Cmd =
    | NoCmd
    | Quit
    | FetchNext(tab: int, perPage: int, page: int)  // `m.next(tab, perPage, page)`
    | TickAndInit                                   // `tea.Batch(spinner.Tick, m.initCmd())`
    | SpinnerCmd                                    // the spinner's own follow-up
    | ListCmd                                       // whatever the list widget returned

  /**
   * What the controller gets from its libraries and platform: the OS name and
   * process launcher for `Open`, the paginator's `NextPage`, the list's
   * `SetSize`, `SetItems` and `Update`, and the theme's total frame sizes.
   */
  datatype Env = Env(
    os: string,
    start: Utils.Command -> Option<string>,
    nextPage: ListState -> int,
    setSize: (ListState, int, int) -> ListState,
    setItems: (ListState, seq<Item>) -> ListState,
    listUpdate: (ListState, Msg) -> ListState,
    frameWidth: int,
    frameHeight: int)

  /** The number of tabs the controller is built with. */
  const TabCount: nat := 4

  /** The shape every controller state keeps: four of everything and an active tab among them. */
  predicate Valid(m: Model)
  {
    && |m.tabs| == TabCount && |m.content| == TabCount
    && |m.ids| == TabCount && |m.visited| == TabCount
    && 0 <= m.activeTab < |m.tabs|
  }

  /**
   * The list's `SetItems`: afterwards the list holds exactly `items`; the
   * widget re-runs its pagination, so page, page size and the rest are
   * whatever the widget makes of them.
   */
  function SetItems(env: Env, l: ListState, items: seq<Item>): (r: ListState)
    ensures r.items == items
  {
    env.setItems(l, items).(items := items)
  }
}

=== FILE: utils.dfy ===
/**
 * internal/utils/utils.go: `Min`, `Max`, the platform dispatch of `Open`,
 * and `FetchStories`, the ordered batch fetch.
 *
 * The fan-out/fan-in of `FetchStories` is modelled by what a run can
 * observe: one request per position of the ID range, one response per
 * request tagged with its position, the responses arriving in any order
 * (`order`, a permutation), and the collector writing each response at
 * `number - start`. `FetchStories` is the order-free reference; the method
 * `FetchConcurrently` runs the collector over an arbitrary arrival order and
 * is proved to agree with it.
 */
module Utils {

  import opened Wrappers
  import opened Constants
  import opened Items
  import opened Cache
  import opened Hn
  import opened Format

  /** `Max`: the larger argument (either, when they are equal). */
  function Max(a: int, b: int): (r: int)
    ensures r >= a && r >= b
    ensures r == a || r == b
  {
    if a > b then a else b
  }

  /** `Min`: the smaller argument (either, when they are equal). */
  function Min(a: int, b: int): (r: int)
    ensures r <= a && r <= b
    ensures r == a || r == b
  {
    if a < b then a else b
  }

  /** A process `Open` starts: program name and arguments. */
  datatype Command = Command(name: string, args: seq<string>)

  /** What `Open` did: its error, if any, and the command it launched, if any. */
  datatype Opened = Opened(err: Option<string>, launched: Option<Command>)

  /** The launcher `Open` picks for a platform, if the platform is supported. */
  function Launcher(url: string, os: string): (c: Option<Command>)
    ensures c.Some? <==> os == Linux || os == Windows || os == Darwin
    ensures c.Some? ==> url in c.value.args && c.value.args[|c.value.args| - 1] == url
  {
    if os == Linux then Some(Command("xdg-open", [url]))
    else if os == Windows then Some(Command("rundll32", ["url.dll,FileProtocolHandler", url]))
    else if os == Darwin then Some(Command("open", [url]))
    else None
  }

  /**
   * `Open`: nothing to do for an empty URL; otherwise start the platform's
   * launcher (`start` reports the outcome of `Cmd.Start`) or refuse the platform.
   */
  function Open(url: string, os: string, start: Command -> Option<string>): (r: Opened)
    ensures url == "" ==> r == Opened(None, None)
    ensures url != "" && Launcher(url, os).None? ==> r == Opened(Some("unsupported platform"), None)
    ensures url != "" && os == Linux ==>
              r.launched == Some(Command("xdg-open", [url])) && r.err == start(r.launched.value)
    ensures url != "" && os == Windows ==>
              r.launched == Some(Command("rundll32", ["url.dll,FileProtocolHandler", url]))
              && r.err == start(r.launched.value)
    ensures url != "" && os == Darwin ==>
              r.launched == Some(Command("open", [url])) && r.err == start(r.launched.value)
  {
    if url == "" then Opened(None, None)
    else match Launcher(url, os)
      case None => Opened(Some("unsupported platform"), None)
      case Some(c) => Opened(start(c), Some(c))
  }

  /** A request on the intake channel: an ID and its absolute position. */
  datatype WorkReq = WorkReq(id: int, number: int)

  /** A response on the results channel: an item (or placeholder) and its position. */
  datatype WorkResp = WorkResp(item: Item, number: int)

  /** The template a failed lookup's title is formatted with. */
  const PlaceholderTemplate: string := "Could not get item (%s)"

  /** The title a failed lookup is shown under: the error text placed in the template. */
  function PlaceholderTitle(e: Error): (t: string)
    ensures t == "Could not get item (" + Message(e) + ")"
  {
    assert PlaceholderTemplate == "Could not get item (" + "%s" + ")";
    NoPercentNoVerbs("Could not get item (");
    NoPercentNoVerbs(")");
    SprintfOneVerb("Could not get item (", ")", Message(e));
    Sprintf(PlaceholderTemplate, Message(e))
  }

  /** The item a worker reports: the fetched item, or a placeholder carrying the error. */
  function Outcome(r: Result<Item>): (it: Item)
    ensures r.Ok? ==> it == r.value
    ensures r.Err? ==> it.titl == "Could not get item (" + Message(r.error) + ")"
                       && it.(titl := "") == Zero
  {
    match r
    case Ok(v) => v
    case Err(e) => Titled(PlaceholderTitle(e))
  }

  /** The range check passes: the tab exists and `end` and `end-start` fit its IDs. */
  predicate InRange(ids: seq<seq<int>>, tabID: int, start: int, end: int)
  {
    0 <= tabID < |ids| && end - start <= |ids[tabID]| && end <= |ids[tabID]|
  }

  /**
   * Inputs on which the source panics: a negative tab index is used to index
   * `ids`, and a range that passes the check with `start < 0` or `start > end`
   * is sliced (and sized) out of bounds.
   */
  predicate Panics(ids: seq<seq<int>>, tabID: int, start: int, end: int)
  {
    tabID < 0 || (InRange(ids, tabID, start, end) && !(0 <= start <= end))
  }

  /** The number of workers started: the configured count, but never more than there are IDs to fetch. */
  function EffectiveWorkers(workers: int, n: int): (w: int)
    ensures w <= n && w <= workers
    ensures w == workers || w == n
    ensures n >= 1 && workers >= 1 ==> w >= 1
  {
    Min(workers, n)
  }

  /**
   * An accepted range with IDs to send but no worker started: the dispatcher
   * blocks on its first send forever.
   */
  predicate Deadlocks(ids: seq<seq<int>>, workers: int, tabID: int, start: int, end: int)
  {
    InRange(ids, tabID, start, end) && start < end && EffectiveWorkers(workers, end - start) < 1
  }

  /** The pool blocks exactly when the configured worker count is not positive. */
  lemma DeadlockMeansNoWorkers(ids: seq<seq<int>>, workers: int, tabID: int, start: int, end: int)
    requires InRange(ids, tabID, start, end) && start < end
    ensures Deadlocks(ids, workers, tabID, start, end) <==> workers <= 0
  {
  }

  /** The dispatcher: one request per ID of the slice, tagged `start + offset`. */
  function Dispatch(slice: seq<int>, start: int): (reqs: seq<WorkReq>)
    ensures |reqs| == |slice|
    ensures forall n :: 0 <= n < |slice| ==> reqs[n] == WorkReq(slice[n], start + n)
    decreases |slice|
  {
    if |slice| == 0 then []
    else Dispatch(slice[..|slice| - 1], start) + [WorkReq(slice[|slice| - 1], start + |slice| - 1)]
  }

  /** One worker step: look the ID up, downgrading a failure to a placeholder. */
  function Serve(getItem: int -> Result<Item>, req: WorkReq): (resp: WorkResp)
    ensures resp.number == req.number
    ensures resp.item == Outcome(getItem(req.id))
  {
    WorkResp(Outcome(getItem(req.id)), req.number)
  }

  /** Every request served, response `i` answering request `i`. */
  function ServeAll(getItem: int -> Result<Item>, reqs: seq<WorkReq>): (resps: seq<WorkResp>)
    ensures |resps| == |reqs|
    ensures forall i :: 0 <= i < |reqs| ==> resps[i] == Serve(getItem, reqs[i])
    decreases |reqs|
  {
    if |reqs| == 0 then [] else [Serve(getItem, reqs[0])] + ServeAll(getItem, reqs[1..])
  }

  /** The items of a run, and the IDs it asked the item service for, in dispatch order. */
  datatype Fetched = Fetched(items: seq<Item>, requested: seq<int>)

  /**
   * `FetchStories`: an out-of-range request yields nothing and asks for nothing;
   * otherwise slot `k` holds the outcome of looking up `ids[tabID][start + k]`,
   * and each ID of the range is asked for once.
   */
  function FetchStories(getItem: int -> Result<Item>, ids: seq<seq<int>>,
                        workers: int, tabID: int, start: int, end: int): (r: Fetched)
    requires !Panics(ids, tabID, start, end) && !Deadlocks(ids, workers, tabID, start, end)
    ensures !InRange(ids, tabID, start, end) ==> r == Fetched([], [])
    ensures InRange(ids, tabID, start, end) ==>
              && |r.items| == end - start
              && r.requested == ids[tabID][start..end]
              && forall k :: 0 <= k < end - start ==> r.items[k] == Outcome(getItem(ids[tabID][start + k]))
  {
    if !InRange(ids, tabID, start, end) then Fetched([], [])
    else
      var reqs := Dispatch(ids[tabID][start..end], start);
      var resps := ServeAll(getItem, reqs);
      Fetched(seq(|resps|, k requires 0 <= k < |resps| => resps[k].item),
              seq(|reqs|, k requires 0 <= k < |reqs| => reqs[k].id))
  }

  /** The worker count is not observable in the result. */
  lemma FetchStoriesIgnoresWorkers(getItem: int -> Result<Item>, ids: seq<seq<int>>,
                                   w1: int, w2: int, tabID: int, start: int, end: int)
    requires !Panics(ids, tabID, start, end)
    requires !Deadlocks(ids, w1, tabID, start, end) && !Deadlocks(ids, w2, tabID, start, end)
    ensures FetchStories(getItem, ids, w1, tabID, start, end)
         == FetchStories(getItem, ids, w2, tabID, start, end)
  {
  }

  /** A failed lookup spoils only its own slot, which shows the error text. */
  lemma FailureIsLocal(getItem: int -> Result<Item>, ids: seq<seq<int>>,
                       workers: int, tabID: int, start: int, end: int, k: int)
    requires !Panics(ids, tabID, start, end) && !Deadlocks(ids, workers, tabID, start, end)
    requires InRange(ids, tabID, start, end) && 0 <= k < end - start
    requires getItem(ids[tabID][start + k]).Err?
    ensures var r := FetchStories(getItem, ids, workers, tabID, start, end);
            r.items[k].titl == "Could not get item (" + Message(getItem(ids[tabID][start + k]).error) + ")"
            && forall j :: 0 <= j < end - start && j != k && getItem(ids[tabID][start + j]).Ok? ==>
                 r.items[j] == getItem(ids[tabID][start + j]).value
  {
  }

  /** `order` lists each of `0 .. n-1` exactly once. */
  predicate IsPermutation(order: seq<int>, n: int)
  {
    && |order| == n
    && (forall i :: 0 <= i < n ==> 0 <= order[i] < n)
    && (forall i, j :: 0 <= i < j < n ==> order[i] != order[j])
    && (forall k :: 0 <= k < n ==> k in order)
  }

  /**
   * The collecting loop: each response is written at `number - start`. With
   * distinct positions, a slot holds the response for its position, and is
   * empty exactly when no response carried that position.
   */
  method Collect(arrival: seq<WorkResp>, start: int, n: nat) returns (slots: seq<Option<Item>>)
    requires forall j :: 0 <= j < |arrival| ==> start <= arrival[j].number < start + n
    requires forall i, j :: 0 <= i < j < |arrival| ==> arrival[i].number != arrival[j].number
    ensures |slots| == n
    ensures forall j :: 0 <= j < |arrival| ==> slots[arrival[j].number - start] == Some(arrival[j].item)
    ensures forall k :: 0 <= k < n && slots[k].Some? ==>
              exists j :: 0 <= j < |arrival| && arrival[j].number == start + k
  {
    slots := seq(n, _ => None);
    var i := 0;
    while i < |arrival|
      invariant 0 <= i <= |arrival|
      invariant |slots| == n
      invariant forall j :: 0 <= j < i ==> slots[arrival[j].number - start] == Some(arrival[j].item)
      invariant forall k :: 0 <= k < n && slots[k].Some? ==>
                  exists j :: 0 <= j < i && arrival[j].number == start + k
    {
      slots := slots[arrival[i].number - start := Some(arrival[i].item)];
      i := i + 1;
    }
  }

  /** The responses in the order they reach the collector. */
  function Arrive(resps: seq<WorkResp>, order: seq<int>): (arrival: seq<WorkResp>)
    requires IsPermutation(order, |resps|)
    ensures |arrival| == |resps|
    ensures forall i :: 0 <= i < |resps| ==> arrival[i] == resps[order[i]]
  {
    seq(|resps|, i requires 0 <= i < |resps| => resps[order[i]])
  }

  /** Once every slot is filled, the items in slot order. */
  function Unwrap(slots: seq<Option<Item>>): (items: seq<Item>)
    requires forall k :: 0 <= k < |slots| ==> slots[k].Some?
    ensures |items| == |slots|
    ensures forall k :: 0 <= k < |slots| ==> slots[k] == Some(items[k])
  {
    seq(|slots|, k requires 0 <= k < |slots| => slots[k].value)
  }

  /** Responses tagged with consecutive positions from `start`. */
  predicate TaggedFrom(resps: seq<WorkResp>, start: int)
  {
    forall i :: 0 <= i < |resps| ==> resps[i].number == start + i
  }

  /** Reordering consecutively tagged responses keeps the tags in range and distinct. */
  lemma ArrivalTagsDistinct(resps: seq<WorkResp>, order: seq<int>, start: int, arrival: seq<WorkResp>)
    requires IsPermutation(order, |resps|) && TaggedFrom(resps, start)
    requires arrival == Arrive(resps, order)
    ensures forall j :: 0 <= j < |arrival| ==> start <= arrival[j].number < start + |resps|
    ensures forall i, j :: 0 <= i < j < |arrival| ==> arrival[i].number != arrival[j].number
  {
  }

  /** Collecting a permuted arrival fills every slot with its own response. */
  lemma CollectedInOrder(resps: seq<WorkResp>, order: seq<int>, start: int,
                         arrival: seq<WorkResp>, slots: seq<Option<Item>>)
    requires IsPermutation(order, |resps|) && TaggedFrom(resps, start)
    requires arrival == Arrive(resps, order) && |slots| == |resps|
    requires forall j :: 0 <= j < |arrival| ==> slots[arrival[j].number - start] == Some(arrival[j].item)
    ensures forall k :: 0 <= k < |resps| ==> slots[k] == Some(resps[k].item)
  {
    forall k | 0 <= k < |resps|
      ensures slots[k] == Some(resps[k].item)
    {
      assert k in order;
      var i :| 0 <= i < |order| && order[i] == k;
      assert arrival[i] == resps[k];
    }
  }

  /**
   * The collector run over responses arriving in `order`: every slot ends up
   * holding the response for its own position, so the page reads in request order.
   */
  method CollectPermuted(arrival: seq<WorkResp>, resps: seq<WorkResp>, order: seq<int>, start: int)
    returns (items: seq<Item>)
    requires IsPermutation(order, |resps|) && TaggedFrom(resps, start)
    requires arrival == Arrive(resps, order)
    ensures |items| == |resps|
    ensures forall k :: 0 <= k < |resps| ==> items[k] == resps[k].item
  {
    ArrivalTagsDistinct(resps, order, start, arrival);
    var slots := Collect(arrival, start, |resps|);
    CollectedInOrder(resps, order, start, arrival, slots);
    items := Unwrap(slots);
  }

  /** The items of the responses to the dispatched range, in request order, are the page `FetchStories` builds. */
  lemma MatchesFetchStories(getItem: int -> Result<Item>, ids: seq<seq<int>>, workers: int,
                            tabID: int, start: int, end: int, items: seq<Item>)
    requires !Panics(ids, tabID, start, end) && !Deadlocks(ids, workers, tabID, start, end)
    requires InRange(ids, tabID, start, end)
    requires var resps := ServeAll(getItem, Dispatch(ids[tabID][start..end], start));
             |items| == |resps| && forall k :: 0 <= k < |resps| ==> items[k] == resps[k].item
    ensures items == FetchStories(getItem, ids, workers, tabID, start, end).items
  {
  }

  /**
   * One run of the pipeline: dispatch, serve, let the responses arrive in
   * `order`, collect. Whatever the arrival order, the result is that of
   * `FetchStories`: output order follows the ID order, not completion order.
   */
  method FetchConcurrently(getItem: int -> Result<Item>, ids: seq<seq<int>>, workers: int,
                           tabID: int, start: int, end: int, order: seq<int>)
    returns (items: seq<Item>)
    requires !Panics(ids, tabID, start, end) && !Deadlocks(ids, workers, tabID, start, end)
    requires InRange(ids, tabID, start, end) ==> IsPermutation(order, end - start)
    ensures items == FetchStories(getItem, ids, workers, tabID, start, end).items
  {
    if !InRange(ids, tabID, start, end) {
      return [];
    }
    var n := end - start;
    var slice := ids[tabID][start..end];
    var resps := ServeAll(getItem, Dispatch(slice, start));
    assert TaggedFrom(resps, start);
    items := CollectPermuted(Arrive(resps, order), resps, order, start);
    MatchesFetchStories(getItem, ids, workers, tabID, start, end, items);
  }

  /** Responses built from lookups made in arrival order. */
  function ArrivalFromLookups(reqs: seq<WorkReq>, order: seq<int>, looked: seq<Result<Item>>)
    : (arrival: seq<WorkResp>)
    requires IsPermutation(order, |reqs|) && |looked| == |reqs|
    ensures |arrival| == |reqs|
    ensures forall i :: 0 <= i < |reqs| ==>
              arrival[i] == WorkResp(Outcome(looked[i]), reqs[order[i]].number)
  {
    seq(|reqs|, i requires 0 <= i < |reqs| => WorkResp(Outcome(looked[i]), reqs[order[i]].number))
  }

  /**
   * Looking the IDs up through a consistent cache in arrival order produces
   * exactly the arrival of the uncached responses.
   */
  lemma CachedArrivalIsFresh(client: string -> Response, decodeItem: Bytes -> Decoded<Item>,
                             cache: MemCache, reqs: seq<WorkReq>, order: seq<int>)
    requires Consistent(client, decodeItem, cache) && IsPermutation(order, |reqs|)
    ensures var turnIds := seq(|reqs|, i requires 0 <= i < |reqs| => reqs[order[i]].id);
            var looked := GetItemsInTurn(client, decodeItem, cache, turnIds);
            && ArrivalFromLookups(reqs, order, looked.0)
               == Arrive(ServeAll(id => Fresh(client, decodeItem, id), reqs), order)
            && Consistent(client, decodeItem, looked.1)
  {
    var turnIds := seq(|reqs|, i requires 0 <= i < |reqs| => reqs[order[i]].id);
    InTurnAgreesWithFresh(client, decodeItem, cache, turnIds);
  }

  /**
   * The same run against the real item service, whose lookups share one cache
   * and happen in the arrival order. From a consistent cache the page equals
   * `FetchStories` over uncached lookups: neither the cache nor the order
   * shows in the output.
   */
  method FetchThroughCache(client: string -> Response, decodeItem: Bytes -> Decoded<Item>,
                           cache: MemCache, ids: seq<seq<int>>, workers: int,
                           tabID: int, start: int, end: int, order: seq<int>)
    returns (items: seq<Item>, cache': MemCache)
    requires Consistent(client, decodeItem, cache)
    requires !Panics(ids, tabID, start, end) && !Deadlocks(ids, workers, tabID, start, end)
    requires InRange(ids, tabID, start, end) ==> IsPermutation(order, end - start)
    ensures items == FetchStories(id => Fresh(client, decodeItem, id), ids, workers, tabID, start, end).items
    ensures Consistent(client, decodeItem, cache')
    ensures forall k :: k in cache.items ==> k in cache'.items && cache'.items[k] == cache.items[k]
  {
    if !InRange(ids, tabID, start, end) {
      return [], cache;
    }
    var n := end - start;
    var slice := ids[tabID][start..end];
    var reqs := Dispatch(slice, start);
    var lookup := id => Fresh(client, decodeItem, id);
    // The lookups happen in arrival order, all through the one cache.
    var turnIds := seq(n, i requires 0 <= i < n => reqs[order[i]].id);
    var looked := GetItemsInTurn(client, decodeItem, cache, turnIds);
    var arrival := ArrivalFromLookups(reqs, order, looked.0);
    CachedArrivalIsFresh(client, decodeItem, cache, reqs, order);
    var resps := ServeAll(lookup, reqs);
    assert TaggedFrom(resps, start);
    items := CollectPermuted(arrival, resps, order, start);
    cache' := looked.1;
    MatchesFetchStories(lookup, ids, workers, tabID, start, end, items);
  }
}

=== FILE: wrappers.dfy ===
/** Failure-carrying helper type shared by the other modules. */
module Wrappers {

  /** The Go idiom `(v, ok)` and nil-or-value pointers. */
  datatype Option<+T> = None | Some(value: T)
}
